=== FILE: README.md ===
# dxf2abc conversion core in Dafny

dxf2abc turns the LINE entities of a DXF drawing into plain-text tables for
structural-analysis software. After the drawing is read, the `convert`
handler in `main.py` does three pieces of arithmetic, and this project
models them as pure functions and proves their properties:

1. **Frame (3D frame) tables.** The L lines give a node table of 2L rows:
   all start points, then all end points, with nothing merged. Line n
   (1-based) gives the element `(n, n+L, 0, 0, 0, tag)`. The tag is the
   line's colour, with 256 ("by layer") replaced by 0. A drawing without
   lines is rejected. This is `Frame`.
2. **Axis subdivision for plate mode.** For each of X, Y and Z, the sorted
   distinct node positions are taken in consecutive pairs (`pairwise`). Each
   pair `(a, b)` becomes `ceil((b-a)/(g/scale) + 1)` evenly spaced points
   from a to b. An axis whose positions are all 0 becomes the single value 0.
   The scale comes from the drawing-unit table: mm 0.1, cm 1, m 100,
   km 100000. This is `Units`, `Itertools` and `Subdivision`.
3. **Plate mesh and quads.** The mesh is the product of the three axes,
   ordered by (X, Y, Z). The column stride c is the smallest number of nodes
   that share an X value. Node n is the corner of the candidate quad
   `(n, n+1, n+c+1, n+c, 0, g/100)`. Every candidate with `n mod c == 0` is
   dropped, and then the last c-1 survivors are dropped too. This is `Grid`
   and `Plates`. `Convert` joins the pieces into one request.

Module layout: `wrappers.dfy` (Result/Option), `errors.dfy` (the failure
conditions), `geometry.dfy` (points and lines), `itertools.dfy`,
`frame.dfy`, `units.dfy`, `subdivision.dfy`, `grid.dfy`, `plates.dfy`,
`convert.dfy`.

A drawing without lines is rejected with a message on the form page
(main.py:52-53); the model returns `EmptyGeometry`. The uncaught exceptions
of the handler that the model covers become the other `ConvertError`
values:

- `g / None` when the unit code is not in the table: `UnsupportedUnit`;
- a zero spacing, which makes the point count infinite: `ZeroSpacing`;
- `linspace` given a negative count: `NegativeSampleCount`;
- an empty mesh, whose NaN stride `value_counts().min()` breaks the quad
  slice: `DegenerateMesh`.

Behaviour of the converter that is easy to miss:

- The unit table is consulted only when an axis has two distinct positions
  to subdivide. A drawing with no such axis never fails with
  `UnsupportedUnit`, whatever its unit code. It converts only when each of
  its axes is all zero; otherwise some axis has one non-zero position and
  the request fails as `DegenerateMesh`.
- An axis with exactly one distinct position, non-zero, has no pairs. It
  yields no points at all, so the mesh is empty and the request fails
  (`DegenerateMesh`).
- A drawing confined to X = 0 gives a single-column mesh. Its plate table is
  empty and is returned as a normal result.
- Frame mode never merges coincident endpoints.
- Quads follow the flattened (Y, Z) column, not a 2D grid per X value. When
  both Y and Z have several values, a quad joins the last Z of one Y row to
  the first Z of the next. The line (0,0,0)–(1,1,1), in centimetres with a
  spacing of at least 1, gives 8 nodes, stride 4 and quads at corners 1, 2
  and 3; quad 2 is (2, 3, 7, 6) and joins node (0, 0, 1) to node (0, 1, 0).

## Model

| member | source | states |
|---|---|---|
| Itertools.Pairwise | main.py:15-19 | `pairwise(s)` has max(len−1, 0) pairs, and pair i is `(s[i], s[i+1])` |
| Frame.SectionTag | main.py:60-61 | the section tag is never 256; it equals the colour unless the colour is 256; it is 0 exactly when the colour is 0 or 256 |
| Frame.NodeTable | main.py:49-51 | the node table has 2L rows; row k is line k's start and row k+L is its end, for every line |
| Frame.ElementTable | main.py:56-61 | one element per line; element k is exactly `(k+1, k+1+L, 0, 0, 0, tag)` with the section tag of line k's colour, so its start node lies in 1..L and its end node in L+1..2L, exactly L apart |
| Frame.BuildFrame | main.py:49-62 | fails with EmptyGeometry exactly when there are no lines; otherwise twice as many nodes as elements and as lines |
| Frame.ElementRefersToLine | main.py:56-61 | element k is `(k+1, k+1+L, 0, 0, 0, tag)`, and its two node rows are line k's start and end |
| Frame.FrameRoundTrip | main.py:49-62 | reading each element's two node rows back gives the original lines in order, with colours replaced by section tags |
| Frame.SharedEndpointNotMerged | main.py:49-51 | a point that ends one line and starts another occurs in two distinct node rows |
| Units.UnitScale | main.py:64-69 | a scale exists exactly for codes 4..7; it is positive, and code 5 (cm) has scale 1 |
| Units.ScaleIncreasing | main.py:64-69 | a larger unit code always has a larger scale |
| Units.Thickness | main.py:95 | the plate thickness times the metre entry of the table (100) is the spacing g |
| Subdivision.SortedUnique | main.py:73 | the result is strictly increasing and holds exactly the input's values |
| Subdivision.Ceil | main.py:82 | the least integer not below x |
| Subdivision.Linspace | main.py:81-83 | n points; the first is a, and the last is b when n >= 2 |
| Subdivision.LinspaceSteps | main.py:81-83 | consecutive linspace points are (b−a)/(n−1) apart |
| Subdivision.PointCount | main.py:82 | the count n satisfies (b−a)/h + 1 <= n < (b−a)/h + 2; for a < b and h > 0 it is at least 2, its step (b−a)/(n−1) is at most h, and one point fewer would give a step above h |
| Subdivision.Spread | main.py:78-84 | subdividing the pairs fails exactly when some pair's point count is negative, and then as NegativeSampleCount carrying the count of the first pair whose count is negative |
| Subdivision.SubdivideAxis | main.py:72-84 | an all-zero axis gives [0]; a single non-zero position gives no points; failures need two positions that are not all zero; with such positions an unknown unit always fails as UnsupportedUnit, and a known unit with g = 0 fails as ZeroSpacing; increasing positions with g > 0 and a known unit never fail |
| Subdivision.AxisEmpty | main.py:74-84 | an axis that cannot fail subdivides to no points exactly when it has a single non-zero position |
| Subdivision.AxisCoverage | main.py:72-84 | with g > 0 and a known unit, a non-empty subdivided axis contains every position and lies between the smallest and the largest position |
| Subdivision.SpreadSpacing | main.py:78-84 | the concatenated segments run from the first pair's start to the last pair's end, contain every pair endpoint, and every step is between 0 and h |
| Subdivision.SpreadLength | main.py:78-84 | the subdivided axis has exactly the sum of the pairs' point counts, and none of them is negative |
| Subdivision.AxisSpacing | main.py:72-84 | with g > 0 and a known unit, the axis starts at the smallest position, ends at the largest, contains every position, and no step exceeds g/scale |
| Subdivision.ZeroAxisCollapses | main.py:74-75 | an axis whose positions are all 0 yields exactly [0] for any spacing and unit |
| Convert.Positions | main.py:73 | the positions of an axis are strictly increasing and are exactly the coordinates the nodes have on that axis |
| Convert.MeshAxes | main.py:71-84 | the axes succeed exactly when the subdivision of each axis's positions succeeds; otherwise the first failure in X, Y, Z order is returned; each axis holds exactly the values of its subdivision and is strictly increasing |
| Convert.MeshFromAxes | main.py:85-92 | building the mesh fails exactly when one of the three axes is empty, and then as DegenerateMesh |
| Convert.PlateMesh | main.py:63-101 | no lines fails as EmptyGeometry; a success comes from subdividing all three axes of the node table, and its nodes are the mesh over those axes, strictly increasing in (X, Y, Z) order, with stride |Y|·|Z|, its quads are the (|X|−1)(|Y|·|Z|−1) drop-and-slice quads of thickness g/100 (when success happens at all is stated by Convert.PlateOutcome) |
| Grid.MeshIndex | main.py:85-90 | the mesh has |X|·|col| rows, and row i·|col|+j is the point (X[i], col[j]) |
| Grid.MeshNodes | main.py:85-90 | the mesh has |X|·|Y|·|Z| nodes, and a point is a mesh node exactly when each of its coordinates comes from the matching axis |
| Grid.ColumnSorted | main.py:85-86 | the (Y, Z) column of increasing axes is strictly increasing in (Y, Z) order |
| Grid.MeshSorted | main.py:85-90 | the mesh is strictly increasing in (X, Y, Z) order, which is the sorted, duplicate-free product |
| Grid.ColumnStride | main.py:92 | the stride is at least 1, is the X count of some node, and is no larger than any node's X count |
| Grid.StrideOfMesh | main.py:92 | on a mesh over distinct X values, the stride equals the column length |Y|·|Z| |
| Plates.SliceTo | main.py:99 | Python `s[:stop]`: the length is min(stop, len) or max(len+stop, 0), and the result is a prefix |
| Plates.Quads | main.py:93-99 | for any m and c the plate table has max(m − m/c − (c−1), 0) rows, and every row is the candidate quad of a corner n in 1..m with n mod c != 0 |
| Plates.RectangularQuadCount | main.py:93-99 | when m = k·c with k >= 1 there are (k−1)(c−1) quads |
| Plates.SingleColumnHasNoQuads | main.py:92-99 | a mesh with one column (c = m) has no quads |
| Plates.StrideOneHasNoQuads | main.py:99 | with c = 1 the `[:0]` slice leaves no quads |
| Plates.QuadsAreCells | main.py:93-99 | for m a multiple of c, dropping every c-th candidate and then the last c−1 gives exactly the candidates n with 1 <= n, n+c <= m and n mod c != 0, in increasing n |
| Plates.QuadsCharacterized | main.py:93-99 | on a rectangular mesh a quad is emitted exactly when it is the candidate of a valid corner; emitted quads have strictly increasing corners |
| Plates.QuadBounds | main.py:93-99 | on a rectangular mesh all four indices lie in 1..m; n1 and n2 share a column; n4 and n3 share the next column; thickness and material are the same for every quad |
| Convert.Convert | main.py:46-103 | no lines fails as EmptyGeometry in both modes; frame mode returns exactly the frame tables of the drawing; plate mode succeeds exactly when the plate conversion does, returning its tables or its error |
| Convert.FrameIgnoresUnit | main.py:103 | the frame output does not depend on the drawing unit |
| Convert.UnknownUnitRejected | main.py:72-84 | an unknown unit code fails plate mode as UnsupportedUnit whenever any of the three axes has two distinct positions |
| Convert.ZeroSpacingRejected | main.py:82 | a zero spacing with a known unit fails plate mode as ZeroSpacing whenever any axis has two distinct positions |
| Convert.UnitIrrelevant | main.py:72-84 | when no axis has two distinct positions, the plate result is the same for every unit code |
| Convert.PlateOutcome | main.py:72-92 | when no axis can fail, plate mode succeeds exactly when no axis has a single non-zero position, and otherwise fails as DegenerateMesh |
| Convert.PlateCoversDrawing | main.py:72-90 | with g > 0 and a known unit, every node of the drawing is a mesh node, and every mesh node lies within the drawing's range on each axis |
| Convert.MeshQuadIsCell | main.py:85-99 | each quad of a |X|×|col| mesh has the corners (X[i], col[j]), (X[i], col[j+1]), (X[i+1], col[j+1]) and (X[i+1], col[j]) |
| Convert.PlateShape | main.py:85-101 | a plate result is the mesh over the subdivided axes, strictly increasing in (X, Y, Z) order; its stride is |Y|·|Z|; it has (|X|−1)(|Y|·|Z|−1) quads, each of thickness g/100 |
| Convert.PlateQuadIsCell | main.py:85-99 | every quad of a plate result is one cell of the grid spanned by the subdivided X axis and the (Y, Z) column |

## Left out

- Web handling is not modelled: Flask routing, form fields, the 16 MiB upload limit, HTML error pages and the mode strings. These are I/O and UI. The mode becomes the `Mode` datatype. A mode string that matches neither branch (a `NameError` in main.py) has no counterpart.
- Reading the DXF file is not modelled: the extension check, exploding LWPOLYLINEs and querying LINE entities. This is a foreign library. Its result is the input `seq<Line>` together with the unit code.
- CSV output (`,` decimals, CRLF line ends) and the zip archive are not modelled. This is output formatting.
- Floating point is not modelled. Coordinates and spacings are exact reals, so the model has no `.round(3)` of nodes and mesh and no float error in `linspace`. It also leaves out the case where `drop_duplicates` merges two different points that round to the same value.
- Grid.MeshSorted: the mesh is the product of the deduplicated axes, not a literal sort of the product with duplicates. Over exact reals the two are equal: the lemmas prove it strictly sorted, with exactly the product's points. The effect of rounding is not covered.
- Subdivision.Linspace: points are exact reals. numpy computes floats and then writes b into the last place.
- Parsing the spacing text with `float()` is not modelled. A non-numeric spacing is a parse error outside the model.
- The orientation of a quad (clockwise or counter-clockwise) is not claimed. The model states the corner order as a grid position.

=== FILE: convert.dfy ===
/**
  The conversion request after the drawing has been read: frame mode
  returns the node and element tables; plate mode subdivides the X, Y and Z
  axes of the node table, builds the mesh and its quads.
*/
module Convert {
  import opened Wrappers
  import opened Errors
  import opened Geometry
  import opened Frame
  import opened Units
  import opened Subdivision
  import opened Grid
  import opened Plates

  /** The two output modes of the form: 3D frame, or flat plate with spacing g. */
  datatype Mode = Frame3D | Plate(spacing: real)

  datatype PlateTables = PlateTables(nodes: seq<Point3>, quads: seq<Quad>)

  datatype Tables = FrameOutput(frame: FrameTables) | PlateOutput(plate: PlateTables)

  /** The sorted distinct positions of a node table along one axis. */
  function Positions(nodes: seq<Point3>, a: Axis): (r: seq<real>)
    ensures StrictlyIncreasing(r)
    ensures forall v :: v in r <==> exists p :: p in nodes && Coord(p, a) == v
  {
    var column := seq(|nodes|, i requires 0 <= i < |nodes| => Coord(nodes[i], a));
    assert forall v :: v in column <==> exists p :: p in nodes && Coord(p, a) == v by {
      forall v
        ensures v in column <==> exists p :: p in nodes && Coord(p, a) == v
      {
        if v in column {
          var i :| 0 <= i < |column| && column[i] == v;
          assert nodes[i] in nodes;
        }
        if exists p :: p in nodes && Coord(p, a) == v {
          var p :| p in nodes && Coord(p, a) == v;
          var i :| 0 <= i < |nodes| && nodes[i] == p;
          assert column[i] == v;
        }
      }
    }
    SortedUnique(column)
  }

  /** The subdivision of one axis of a node table. */
  function AxisPoints(nodes: seq<Point3>, a: Axis, g: real, unit: int): Result<seq<real>, ConvertError> {
    SubdivideAxis(Positions(nodes, a), g, unit)
  }

  /**
    The three subdivided axes, each sorted without duplicates. The axes are
    subdivided in X, Y, Z order and the first failure is the result.
  */
  function MeshAxes(nodes: seq<Point3>, g: real, unit: int): (r: Result<(seq<real>, seq<real>, seq<real>), ConvertError>)
    ensures r.Success? <==>
              AxisPoints(nodes, X, g, unit).Success? && AxisPoints(nodes, Y, g, unit).Success? &&
              AxisPoints(nodes, Z, g, unit).Success?
    ensures AxisPoints(nodes, X, g, unit).Failure? ==> r == Failure(AxisPoints(nodes, X, g, unit).error)
    ensures AxisPoints(nodes, X, g, unit).Success? && AxisPoints(nodes, Y, g, unit).Failure? ==>
              r == Failure(AxisPoints(nodes, Y, g, unit).error)
    ensures AxisPoints(nodes, X, g, unit).Success? && AxisPoints(nodes, Y, g, unit).Success? &&
            AxisPoints(nodes, Z, g, unit).Failure? ==>
              r == Failure(AxisPoints(nodes, Z, g, unit).error)
    ensures r.Success? ==> forall v :: v in r.value.0 <==> v in AxisPoints(nodes, X, g, unit).value
    ensures r.Success? ==> forall v :: v in r.value.1 <==> v in AxisPoints(nodes, Y, g, unit).value
    ensures r.Success? ==> forall v :: v in r.value.2 <==> v in AxisPoints(nodes, Z, g, unit).value
    ensures r.Success? ==>
              StrictlyIncreasing(r.value.0) && StrictlyIncreasing(r.value.1) && StrictlyIncreasing(r.value.2)
  {
    var xs :- AxisPoints(nodes, X, g, unit);
    var ys :- AxisPoints(nodes, Y, g, unit);
    var zs :- AxisPoints(nodes, Z, g, unit);
    Success((SortedUnique(xs), SortedUnique(ys), SortedUnique(zs)))
  }

  /**
    The mesh over three subdivided axes and its quads with thickness g / 100;
    an empty mesh has no column stride and is rejected.
  */
  function MeshFromAxes(axes: (seq<real>, seq<real>, seq<real>), g: real): (r: Result<PlateTables, ConvertError>)
    ensures r.Failure? <==> |axes.0| == 0 || |axes.1| == 0 || |axes.2| == 0
    ensures r.Failure? ==> r.error == DegenerateMesh
  {
    var nodes := MeshNodes(axes.0, axes.1, axes.2);
    EmptyMesh(axes.0, axes.1, axes.2);
    if |nodes| == 0 then Failure(DegenerateMesh)
    else Success(PlateTables(nodes, Quads(|nodes|, ColumnStride(nodes), Thickness(g))))
  }

  /** The mesh is empty exactly when one of its axes is. */
  lemma EmptyMesh(xs: seq<real>, ys: seq<real>, zs: seq<real>)
    ensures |MeshNodes(xs, ys, zs)| == 0 <==> |xs| == 0 || |ys| == 0 || |zs| == 0
  {
    if |xs| > 0 && |ys| > 0 && |zs| > 0 {
      MulAtLeast(|ys|, |zs|);
      MulAtLeast(|xs|, |ys| * |zs|);
    }
  }

  /** Plate mode: frame node table, subdivided axes, mesh and quads. */
  function PlateMesh(lines: seq<Line>, g: real, unit: int): (r: Result<PlateTables, ConvertError>)
    ensures |lines| == 0 ==> r == Failure(EmptyGeometry)
    ensures r.Success? ==>
              && |lines| > 0
              && MeshAxes(NodeTable(lines), g, unit).Success?
              && r == MeshFromAxes(MeshAxes(NodeTable(lines), g, unit).value, g)
              && PlateOver(MeshAxes(NodeTable(lines), g, unit).value, g, r.value)
  {
    var frame :- BuildFrame(lines);
    var axes :- MeshAxes(frame.nodes, g, unit);
    var r := MeshFromAxes(axes, g);
    if r.Success? then MeshFromAxesShape(axes, g, r.value); r else r
  }

  /** One conversion request. */
  function Convert(mode: Mode, lines: seq<Line>, unit: int): (r: Result<Tables, ConvertError>)
    ensures |lines| == 0 ==> r == Failure(EmptyGeometry)
    ensures mode.Frame3D? && |lines| > 0 ==> r.Success? && r.value.FrameOutput?
    ensures mode.Plate? && r.Success? ==> r.value.PlateOutput? && |r.value.plate.nodes| > 0
    ensures mode.Frame3D? && |lines| > 0 ==> r.value.frame == BuildFrame(lines).value
    ensures mode.Plate? ==> (r.Success? <==> PlateMesh(lines, mode.spacing, unit).Success?)
    ensures mode.Plate? && r.Success? ==> r.value.plate == PlateMesh(lines, mode.spacing, unit).value
    ensures mode.Plate? && r.Failure? ==> r.error == PlateMesh(lines, mode.spacing, unit).error
  {
    match mode
    case Frame3D =>
      var frame :- BuildFrame(lines);
      Success(FrameOutput(frame))
    case Plate(g) =>
      var plate :- PlateMesh(lines, g, unit);
      Success(PlateOutput(plate))
  }

  /** Frame output never depends on the drawing unit. */
  lemma FrameIgnoresUnit(lines: seq<Line>, u1: int, u2: int)
    ensures Convert(Frame3D, lines, u1) == Convert(Frame3D, lines, u2)
  {
  }

  /** Plate mode without a drawing-level failure is the mesh over the subdivided axes. */
  lemma PlateMeshUnfold(lines: seq<Line>, g: real, unit: int)
    requires |lines| > 0
    ensures MeshAxes(NodeTable(lines), g, unit).Failure? ==>
              PlateMesh(lines, g, unit) == Failure(MeshAxes(NodeTable(lines), g, unit).error)
    ensures MeshAxes(NodeTable(lines), g, unit).Success? ==>
              PlateMesh(lines, g, unit) == MeshFromAxes(MeshAxes(NodeTable(lines), g, unit).value, g)
  {
  }

  /** If every axis with a pair fails with e, and some axis has a pair, the axes fail with e. */
  lemma PairedAxisFails(nodes: seq<Point3>, g: real, unit: int, e: ConvertError)
    requires forall a: Axis :: |Positions(nodes, a)| >= 2 ==> AxisPoints(nodes, a, g, unit) == Failure(e)
    requires |Positions(nodes, X)| >= 2 || |Positions(nodes, Y)| >= 2 || |Positions(nodes, Z)| >= 2
    ensures MeshAxes(nodes, g, unit) == Failure(e)
  {
    assert |Positions(nodes, X)| >= 2 ==> AxisPoints(nodes, X, g, unit) == Failure(e);
    assert |Positions(nodes, Y)| >= 2 ==> AxisPoints(nodes, Y, g, unit) == Failure(e);
    assert |Positions(nodes, Z)| >= 2 ==> AxisPoints(nodes, Z, g, unit) == Failure(e);
  }

  /**
    An unknown unit code is rejected as soon as one axis, X, Y or Z, has two
    distinct positions to subdivide.
  */
  lemma UnknownUnitRejected(lines: seq<Line>, g: real, unit: int)
    requires |lines| > 0 && UnitScale(unit).None?
    requires var nodes := NodeTable(lines);
             |Positions(nodes, X)| >= 2 || |Positions(nodes, Y)| >= 2 || |Positions(nodes, Z)| >= 2
    ensures PlateMesh(lines, g, unit) == Failure(UnsupportedUnit(unit))
  {
    var nodes := NodeTable(lines);
    forall a: Axis | |Positions(nodes, a)| >= 2
      ensures AxisPoints(nodes, a, g, unit) == Failure(UnsupportedUnit(unit))
    {
      PairNotZero(Positions(nodes, a));
    }
    PairedAxisFails(nodes, g, unit, UnsupportedUnit(unit));
    PlateMeshUnfold(lines, g, unit);
  }

  /** With a known unit, a zero spacing is rejected as soon as one axis has two distinct positions. */
  lemma ZeroSpacingRejected(lines: seq<Line>, unit: int)
    requires |lines| > 0 && UnitScale(unit).Some?
    requires var nodes := NodeTable(lines);
             |Positions(nodes, X)| >= 2 || |Positions(nodes, Y)| >= 2 || |Positions(nodes, Z)| >= 2
    ensures PlateMesh(lines, 0.0, unit) == Failure(ZeroSpacing)
  {
    var nodes := NodeTable(lines);
    forall a: Axis | |Positions(nodes, a)| >= 2
      ensures AxisPoints(nodes, a, 0.0, unit) == Failure(ZeroSpacing)
    {
      PairNotZero(Positions(nodes, a));
    }
    PairedAxisFails(nodes, 0.0, unit, ZeroSpacing);
    PlateMeshUnfold(lines, 0.0, unit);
  }

  /** An axis without a pair is subdivided the same way whatever the unit code. */
  lemma PairlessAxis(positions: seq<real>, g: real, u1: int, u2: int)
    requires |positions| < 2
    ensures SubdivideAxis(positions, g, u1) == SubdivideAxis(positions, g, u2)
  {
  }

  /**
    When no axis has two distinct positions, the unit code is never looked up:
    plate mode gives the same outcome for every unit.
  */
  lemma UnitIrrelevant(lines: seq<Line>, g: real, u1: int, u2: int)
    requires forall a: Axis :: |Positions(NodeTable(lines), a)| < 2
    ensures PlateMesh(lines, g, u1) == PlateMesh(lines, g, u2)
  {
    var nodes := NodeTable(lines);
    PairlessAxis(Positions(nodes, X), g, u1, u2);
    PairlessAxis(Positions(nodes, Y), g, u1, u2);
    PairlessAxis(Positions(nodes, Z), g, u1, u2);
    assert MeshAxes(nodes, g, u1) == MeshAxes(nodes, g, u2);
  }

  /** A sequence and its sorted distinct values are empty together. */
  lemma SortedUniqueEmpty(xs: seq<real>)
    ensures SortedUnique(xs) == [] <==> xs == []
  {
    if xs != [] {
      assert xs[0] in SortedUnique(xs);
    }
  }

  /**
    When every axis either has no pair or can be subdivided (positive spacing,
    known unit), plate mode fails only for an empty mesh, and that happens
    exactly when some axis is a lone non-zero position.
  */
  lemma PlateOutcome(lines: seq<Line>, g: real, unit: int)
    requires |lines| > 0
    requires forall a: Axis :: |Positions(NodeTable(lines), a)| < 2 || (g > 0.0 && UnitScale(unit).Some?)
    ensures var nodes := NodeTable(lines);
            PlateMesh(lines, g, unit).Success? <==>
              !Lone(Positions(nodes, X)) && !Lone(Positions(nodes, Y)) && !Lone(Positions(nodes, Z))
    ensures PlateMesh(lines, g, unit).Failure? ==> PlateMesh(lines, g, unit).error == DegenerateMesh
  {
    var nodes := NodeTable(lines);
    forall a: Axis
      ensures AxisPoints(nodes, a, g, unit).Success?
      ensures SortedUnique(AxisPoints(nodes, a, g, unit).value) == [] <==> Lone(Positions(nodes, a))
    {
      AxisEmpty(Positions(nodes, a), g, unit);
      SortedUniqueEmpty(AxisPoints(nodes, a, g, unit).value);
    }
    PlateMeshUnfold(lines, g, unit);
  }

  /** The range condition of a point against a node table along one axis. */
  ghost predicate WithinAxis(nodes: seq<Point3>, q: Point3, a: Axis) {
    var pos := Positions(nodes, a);
    |pos| > 0 && pos[0] <= Coord(q, a) <= pos[|pos| - 1]
  }

  /** q lies, on every axis, between the smallest and the largest coordinate of the node table. */
  ghost predicate InRange(nodes: seq<Point3>, q: Point3) {
    WithinAxis(nodes, q, X) && WithinAxis(nodes, q, Y) && WithinAxis(nodes, q, Z)
  }

  /**
    One mesh axis (the deduplicated subdivision of axis a) holds every
    coordinate of the node table on a and stays within their range.
  */
  lemma AxisCovered(nodes: seq<Point3>, a: Axis, g: real, unit: int, axis: seq<real>)
    requires |nodes| > 0 && g > 0.0 && UnitScale(unit).Some?
    requires AxisPoints(nodes, a, g, unit).Success?
    requires forall v :: v in axis <==> v in AxisPoints(nodes, a, g, unit).value
    requires axis != []
    ensures forall p :: p in nodes ==> Coord(p, a) in axis
    ensures forall q: Point3 :: Coord(q, a) in axis ==> WithinAxis(nodes, q, a)
  {
    var pos := Positions(nodes, a);
    assert nodes[0] in nodes && Coord(nodes[0], a) in pos;
    assert axis[0] in axis && axis[0] in AxisPoints(nodes, a, g, unit).value;
    AxisCoverage(pos, g, unit);
    forall p | p in nodes
      ensures Coord(p, a) in axis
    {
      assert Coord(p, a) in pos;
    }
  }

  /**
    With a positive spacing and a known unit, a plate mesh contains every
    node of the drawing and stays within the drawing's extent on every axis.
  */
  lemma PlateCoversDrawing(lines: seq<Line>, g: real, unit: int, out: PlateTables)
    requires g > 0.0 && UnitScale(unit).Some?
    requires PlateMesh(lines, g, unit) == Success(out)
    ensures forall p :: p in NodeTable(lines) ==> p in out.nodes
    ensures forall q :: q in out.nodes ==> InRange(NodeTable(lines), q)
  {
    PlateMeshUnfold(lines, g, unit);
    MeshCoversNodes(NodeTable(lines), g, unit, out);
  }

  lemma MeshCoversNodes(nodes: seq<Point3>, g: real, unit: int, out: PlateTables)
    requires |nodes| > 0 && g > 0.0 && UnitScale(unit).Some?
    requires MeshAxes(nodes, g, unit).Success?
    requires MeshFromAxes(MeshAxes(nodes, g, unit).value, g) == Success(out)
    ensures forall p :: p in nodes ==> p in out.nodes
    ensures forall q :: q in out.nodes ==> InRange(nodes, q)
  {
    var axes := MeshAxes(nodes, g, unit).value;
    assert out.nodes == MeshNodes(axes.0, axes.1, axes.2);
    AxisCovered(nodes, X, g, unit, axes.0);
    AxisCovered(nodes, Y, g, unit, axes.1);
    AxisCovered(nodes, Z, g, unit, axes.2);
    forall p | p in nodes
      ensures p in out.nodes
    {
      CoordParts(p);
    }
    forall q | q in out.nodes
      ensures InRange(nodes, q)
    {
      CoordParts(q);
    }
  }

  /** The quotient of x by c stays below k when x < k * c. */
  lemma QuotientBelow(x: int, k: int, c: int)
    requires c >= 1 && 0 <= x < k * c
    ensures x / c < k
  {
    var q := x / c;
    assert x == q * c + x % c;
    if q >= k {
      MulMonotone(k, q, c);
      assert false;
    }
  }

  /** The four corners of a valid corner n in a mesh of k columns of c nodes, as (column, row) positions. */
  lemma CornerIndices(n: int, k: int, c: int)
    requires c >= 1 && k >= 0 && ValidStart(n, k * c, c)
    ensures var i, j := (n - 1) / c, (n - 1) % c;
            && 0 <= i && i + 1 < k && 0 <= j && j + 1 < c
            && n - 1 == i * c + j
            && n == i * c + (j + 1)
            && n + c - 1 == (i + 1) * c + j
            && n + c == (i + 1) * c + (j + 1)
  {
    var m := k * c;
    DivUnique(m, c, k, 0);
    CornerArithmetic(n, m, c);
    var i, j := (n - 1) / c, (n - 1) % c;
    assert n - 1 == i * c + j;
    QuotientBelow(n + c - 1, k, c);
    assert (i + 1) * c == i * c + c;
  }

  /** A quad of a rectangular table of k columns of c nodes, located by column i and row j of its first corner. */
  lemma QuadCorner(k: nat, c: nat, t: real, q: Quad)
    requires c >= 1 && q in Quads(k * c, c, t)
    ensures var i, j := (q.n1 - 1) / c, (q.n1 - 1) % c;
            && 0 <= i && i + 1 < k && 0 <= j && j + 1 < c
            && q == Candidate(q.n1, c, t)
            && 1 <= q.n1
            && q.n1 - 1 == i * c + j
            && q.n2 - 1 == i * c + (j + 1)
            && q.n3 - 1 == (i + 1) * c + (j + 1)
            && q.n4 - 1 == (i + 1) * c + j
  {
    var m := k * c;
    assert m % c == 0 by {
      DivUnique(m, c, k, 0);
    }
    QuadsCharacterized(m, c, t);
    CornerIndices(q.n1, k, c);
  }

  /** The four mesh nodes around cell (i, j), at the indices of a candidate cornered at i * |col| + j + 1. */
  lemma CellCorners(xs: seq<real>, col: seq<(real, real)>, i: nat, j: nat, t: real, q: Quad)
    requires i + 1 < |xs| && j + 1 < |col|
    requires q == Candidate(i * |col| + j + 1, |col|, t)
    ensures var nodes := Mesh(xs, col);
            && q.n1 + |col| + 1 <= |nodes|
            && nodes[q.n1 - 1] == Point3(xs[i], col[j].0, col[j].1)
            && nodes[q.n2 - 1] == Point3(xs[i], col[j + 1].0, col[j + 1].1)
            && nodes[q.n3 - 1] == Point3(xs[i + 1], col[j + 1].0, col[j + 1].1)
            && nodes[q.n4 - 1] == Point3(xs[i + 1], col[j].0, col[j].1)
  {
    var c := |col|;
    assert (i + 1) * c == i * c + c;
    MeshIndex(xs, col, i, j);
    MeshIndex(xs, col, i, j + 1);
    MeshIndex(xs, col, i + 1, j);
    MeshIndex(xs, col, i + 1, j + 1);
  }

  /**
    q is the cell of the node grid whose first corner has X index i and
    column index j: its corners are (X[i], col[j]), (X[i], col[j+1]),
    (X[i+1], col[j+1]) and (X[i+1], col[j]), in that order.
  */
  ghost predicate IsGridCell(nodes: seq<Point3>, xs: seq<real>, col: seq<(real, real)>, t: real, q: Quad) {
    var c := |col|;
    && c > 0
    && var i, j := (q.n1 - 1) / c, (q.n1 - 1) % c;
    && i + 1 < |xs| && j + 1 < c
    && q == Candidate(q.n1, c, t)
    && 1 <= q.n1 && q.n1 + c + 1 <= |nodes|
    && nodes[q.n1 - 1] == Point3(xs[i], col[j].0, col[j].1)
    && nodes[q.n2 - 1] == Point3(xs[i], col[j + 1].0, col[j + 1].1)
    && nodes[q.n3 - 1] == Point3(xs[i + 1], col[j + 1].0, col[j + 1].1)
    && nodes[q.n4 - 1] == Point3(xs[i + 1], col[j].0, col[j].1)
  }

  /**
    On a mesh of |xs| columns of |col| nodes, every quad is one grid cell:
    with i, j the X index and column index of its first corner, the corners
    are (X[i], col[j]), (X[i], col[j+1]), (X[i+1], col[j+1]), (X[i+1], col[j]).
  */
  lemma MeshQuadIsCell(xs: seq<real>, col: seq<(real, real)>, t: real, q: Quad)
    requires |col| > 0 && q in Quads(|xs| * |col|, |col|, t)
    ensures IsGridCell(Mesh(xs, col), xs, col, t, q)
  {
    var c := |col|;
    QuadCorner(|xs|, c, t, q);
    var i, j := (q.n1 - 1) / c, (q.n1 - 1) % c;
    CellCorners(xs, col, i, j, t, q);
  }

  /** The quads of a mesh over distinct X values are those of a rectangular table of |xs| columns of |col| nodes. */
  lemma MeshQuadsRectangular(xs: seq<real>, col: seq<(real, real)>, t: real)
    requires StrictlyIncreasing(xs) && |xs| > 0 && |col| > 0
    ensures |Mesh(xs, col)| == |xs| * |col| > 0
    ensures Quads(|Mesh(xs, col)|, ColumnStride(Mesh(xs, col)), t) == Quads(|xs| * |col|, |col|, t)
  {
    StrideOfMesh(xs, col);
    MeshLength(xs, col);
  }

  /** A mesh built from strictly increasing axes is the product of the axes with rectangular quads. */
  lemma MeshFromAxesIsMesh(axes: (seq<real>, seq<real>, seq<real>), g: real, out: PlateTables)
    requires StrictlyIncreasing(axes.0)
    requires MeshFromAxes(axes, g) == Success(out)
    ensures var col := Column(axes.1, axes.2);
            && |axes.0| > 0 && |col| > 0
            && out.nodes == Mesh(axes.0, col)
            && |out.nodes| == |axes.0| * |col| > 0
            && ColumnStride(out.nodes) == |col|
            && out.quads == Quads(|axes.0| * |col|, |col|, Thickness(g))
  {
    var col := Column(axes.1, axes.2);
    MeshLength(axes.0, col);
    assert |axes.0| > 0 && |col| > 0;
    StrideOfMesh(axes.0, col);
    MeshQuadsRectangular(axes.0, col, Thickness(g));
  }

  /**
    The shape of plate tables over three axes: the nodes are the product of
    X with the (Y, Z) column, strictly increasing in (X, Y, Z) order, the
    stride is |Y| * |Z|, there are
    (|X| - 1)(|Y| * |Z| - 1) quads, and every quad has thickness g / 100.
  */
  ghost predicate PlateOver(axes: (seq<real>, seq<real>, seq<real>), g: real, out: PlateTables) {
    var col := Column(axes.1, axes.2);
    && out.nodes == Mesh(axes.0, col)
    && |col| == |axes.1| * |axes.2| > 0
    && |axes.0| > 0 && |out.nodes| > 0
    && ColumnStride(out.nodes) == |col|
    && out.quads == Quads(|axes.0| * |col|, |col|, Thickness(g))
    && |out.quads| == (|axes.0| - 1) * (|col| - 1)
    && (forall q :: q in out.quads ==> q.thickness * 100.0 == g && q.material == 0)
    && PointsSorted(out.nodes)
  }

  /** A mesh built from strictly increasing axes has the shape of plate tables over them. */
  lemma MeshFromAxesShape(axes: (seq<real>, seq<real>, seq<real>), g: real, out: PlateTables)
    requires StrictlyIncreasing(axes.0) && StrictlyIncreasing(axes.1) && StrictlyIncreasing(axes.2)
    requires MeshFromAxes(axes, g) == Success(out)
    ensures PlateOver(axes, g, out)
  {
    var col := Column(axes.1, axes.2);
    ColumnLength(axes.1, axes.2);
    ColumnSorted(axes.1, axes.2);
    MeshSorted(axes.0, col);
    MeshFromAxesIsMesh(axes, g, out);
    GridQuads(|axes.0|, |col|, Thickness(g));
  }

  /** A successful plate conversion has the shape of plate tables over the subdivided axes. */
  lemma PlateShape(lines: seq<Line>, g: real, unit: int, out: PlateTables)
    requires PlateMesh(lines, g, unit) == Success(out)
    ensures |lines| > 0 && MeshAxes(NodeTable(lines), g, unit).Success?
    ensures PlateOver(MeshAxes(NodeTable(lines), g, unit).value, g, out)
  {
    MeshFromAxesShape(MeshAxes(NodeTable(lines), g, unit).value, g, out);
  }

  /** Every quad of a mesh built from strictly increasing axes is one cell of the node grid. */
  lemma AxesQuadIsCell(axes: (seq<real>, seq<real>, seq<real>), g: real, out: PlateTables, q: Quad)
    requires StrictlyIncreasing(axes.0)
    requires MeshFromAxes(axes, g) == Success(out) && q in out.quads
    ensures IsGridCell(out.nodes, axes.0, Column(axes.1, axes.2), Thickness(g), q)
  {
    MeshFromAxesIsMesh(axes, g, out);
    MeshQuadIsCell(axes.0, Column(axes.1, axes.2), Thickness(g), q);
  }

  /**
    Every quad of a successful plate conversion is one cell of the grid
    spanned by the subdivided X axis and the (Y, Z) column.
  */
  lemma PlateQuadIsCell(lines: seq<Line>, g: real, unit: int, out: PlateTables, q: Quad)
    requires PlateMesh(lines, g, unit) == Success(out) && q in out.quads
    ensures |lines| > 0 && MeshAxes(NodeTable(lines), g, unit).Success?
    ensures var axes := MeshAxes(NodeTable(lines), g, unit).value;
            IsGridCell(out.nodes, axes.0, Column(axes.1, axes.2), Thickness(g), q)
  {
    AxesQuadIsCell(MeshAxes(NodeTable(lines), g, unit).value, g, out, q);
  }
}

=== FILE: errors.dfy ===
/** The ways one conversion request can fail after the drawing has been read. */
module Errors {

  datatype ConvertError =
      /** The model space holds no LINE entity once polylines are exploded. */
    | EmptyGeometry
      /** The drawing's unit code has no entry in the unit table. */
    | UnsupportedUnit(code: int)
      /** A zero spacing makes the point count infinite, so it has no integer ceiling. */
    | ZeroSpacing
      /** The point count of one segment is negative, which linspace refuses. */
    | NegativeSampleCount(count: int)
      /** The mesh has no node, so no column stride exists. */
    | DegenerateMesh
}

=== FILE: frame.dfy ===
/**
  The 3D frame tables: every extracted LINE contributes its start point to
  the first half of the node table and its end point to the second half;
  element n joins node n to node n + L. Nothing is merged.
*/
module Frame {
  import opened Wrappers
  import opened Errors
  import opened Geometry

  /** Colour code meaning "take the colour of the layer". */
  const ByLayer: int := 256

  /** One row of the element table: wI, wJ, wK, Kier, Mat, Prz. */
  datatype Element = Element(startNode: int, endNode: int, orientation: int,
                             direction: int, material: int, section: int)

  datatype FrameTables = FrameTables(nodes: seq<Point3>, elements: seq<Element>)

  /** The section tag of a line: its colour, with "by layer" replaced by 0. */
  function SectionTag(color: int): (tag: int)
    ensures tag != ByLayer
    ensures tag == color || color == ByLayer
    ensures tag == 0 <==> color == 0 || color == ByLayer
  {
    if color == ByLayer then 0 else color
  }

  function Starts(lines: seq<Line>): seq<Point3> {
    seq(|lines|, i requires 0 <= i < |lines| => lines[i].start)
  }

  function Ends(lines: seq<Line>): seq<Point3> {
    seq(|lines|, i requires 0 <= i < |lines| => lines[i].end)
  }

  /** All start points followed by all end points, without deduplication. */
  function NodeTable(lines: seq<Line>): (nodes: seq<Point3>)
    ensures |nodes| == 2 * |lines|
    ensures forall k :: 0 <= k < |lines| ==>
              nodes[k] == lines[k].start && nodes[k + |lines|] == lines[k].end
  {
    Starts(lines) + Ends(lines)
  }

  /** The element of the line at 0-based position k. */
  function ElementOf(lines: seq<Line>, k: nat): Element
    requires k < |lines|
  {
    Element(k + 1, k + 1 + |lines|, 0, 0, 0, SectionTag(lines[k].color))
  }

  /** One element per line, in line order. */
  function ElementTable(lines: seq<Line>): (elements: seq<Element>)
    ensures |elements| == |lines|
    ensures forall k :: 0 <= k < |lines| ==>
              && 1 <= elements[k].startNode <= |lines|
              && |lines| < elements[k].endNode <= 2 * |lines|
              && elements[k].endNode - elements[k].startNode == |lines|
    ensures forall k :: 0 <= k < |lines| ==>
              elements[k] == Element(k + 1, k + 1 + |lines|, 0, 0, 0, SectionTag(lines[k].color))
  {
    seq(|lines|, k requires 0 <= k < |lines| => ElementOf(lines, k))
  }

  /** Frame mode: the node and element tables, or EmptyGeometry for a drawing without lines. */
  function BuildFrame(lines: seq<Line>): (r: Result<FrameTables, ConvertError>)
    ensures r.Failure? <==> |lines| == 0
    ensures r.Failure? ==> r.error == EmptyGeometry
    ensures r.Success? ==> |r.value.nodes| == 2 * |r.value.elements| == 2 * |lines|
  {
    if |lines| == 0 then Failure(EmptyGeometry)
    else Success(FrameTables(NodeTable(lines), ElementTable(lines)))
  }

  /** The drawing's lines with their colours replaced by section tags. */
  function Retag(lines: seq<Line>): (r: seq<Line>)
    ensures |r| == |lines|
    ensures forall k :: 0 <= k < |lines| ==>
              && r[k].start == lines[k].start && r[k].end == lines[k].end
              && r[k].color == SectionTag(lines[k].color)
  {
    if |lines| == 0 then []
    else [Line(lines[0].start, lines[0].end, SectionTag(lines[0].color))] + Retag(lines[1..])
  }

  /** Reads one element back as a line by looking up its two nodes. */
  function LineOf(nodes: seq<Point3>, e: Element): Option<Line> {
    if 1 <= e.startNode <= |nodes| && 1 <= e.endNode <= |nodes| then
      Some(Line(nodes[e.startNode - 1], nodes[e.endNode - 1], e.section))
    else None
  }

  /** Reads a whole element table back as lines; None if any element points outside the node table. */
  function Recover(nodes: seq<Point3>, elements: seq<Element>): Option<seq<Line>> {
    if |elements| == 0 then Some([])
    else
      match (LineOf(nodes, elements[0]), Recover(nodes, elements[1..]))
      case (Some(l), Some(rest)) => Some([l] + rest)
      case _ => None
  }

  /** Element k refers to exactly the start and end of line k. */
  lemma ElementRefersToLine(lines: seq<Line>, k: nat)
    requires k < |lines|
    ensures var t := BuildFrame(lines).value;
            && t.elements[k] == Element(k + 1, k + 1 + |lines|, 0, 0, 0, SectionTag(lines[k].color))
            && LineOf(t.nodes, t.elements[k]) == Some(Line(lines[k].start, lines[k].end, SectionTag(lines[k].color)))
  {
  }

  /** Recover(nodes, elements[i..]) == Retag(lines[i..]) for every suffix. */
  lemma {:induction false} RecoverSuffix(lines: seq<Line>, i: nat)
    requires 0 < |lines| && i <= |lines|
    ensures Recover(NodeTable(lines), ElementTable(lines)[i..]) == Some(Retag(lines[i..]))
    decreases |lines| - i
  {
    var nodes, elements := NodeTable(lines), ElementTable(lines);
    if i < |lines| {
      RecoverSuffix(lines, i + 1);
      assert elements[i..][1..] == elements[i + 1..];
      assert lines[i..][1..] == lines[i + 1..];
      assert elements[i] == ElementOf(lines, i);
      assert LineOf(nodes, elements[i]) == Some(Line(lines[i].start, lines[i].end, SectionTag(lines[i].color)));
    }
  }

  /** Round trip: reading the tables back gives the drawing's lines, colours retagged. */
  lemma FrameRoundTrip(lines: seq<Line>)
    requires |lines| > 0
    ensures var t := BuildFrame(lines).value;
            Recover(t.nodes, t.elements) == Some(Retag(lines))
  {
    RecoverSuffix(lines, 0);
    assert ElementTable(lines)[0..] == ElementTable(lines);
    assert lines[0..] == lines;
  }

  /** A point shared by two lines appears twice in the node table. */
  lemma SharedEndpointNotMerged(lines: seq<Line>, i: nat, j: nat)
    requires i < |lines| && j < |lines| && lines[i].end == lines[j].start
    ensures var nodes := BuildFrame(lines).value.nodes;
            nodes[i + |lines|] == nodes[j] == lines[j].start
  {
  }
}

=== FILE: geometry.dfy ===
/** Points and line entities as extracted from the drawing's model space. */
module Geometry {

  /** A 3D coordinate; the converter (main.py) rounds these to 3 decimals, the model keeps them exact. */
  datatype Point3 = Point3(x: real, y: real, z: real)

  /** A LINE entity: start point, end point and its colour attribute. */
  datatype Line = Line(start: Point3, end: Point3, color: int)

  /** The three columns of a node table. */
  datatype Axis = X | Y | Z

  function Coord(p: Point3, a: Axis): real {
    match a
    case X => p.x
    case Y => p.y
    case Z => p.z
  }

  lemma CoordParts(p: Point3)
    ensures Coord(p, X) == p.x && Coord(p, Y) == p.y && Coord(p, Z) == p.z
  {
  }
}

=== FILE: grid.dfy ===
/**
  The plate mesh nodes: the Cartesian product of the three subdivided axes,
  sorted by (X, Y, Z) without duplicates, and the column stride c, the
  smallest number of nodes sharing one X value.
*/
module Grid {
  import opened Geometry
  import opened Subdivision

  /** The (y, z) positions of one X column, Y-major. */
  function Column(ys: seq<real>, zs: seq<real>): seq<(real, real)> {
    if |ys| == 0 then []
    else seq(|zs|, k requires 0 <= k < |zs| => (ys[0], zs[k])) + Column(ys[1..], zs)
  }

  /** The nodes of one X column. */
  function Row(x: real, col: seq<(real, real)>): seq<Point3> {
    seq(|col|, k requires 0 <= k < |col| => Point3(x, col[k].0, col[k].1))
  }

  /** The mesh node table: one column per X value, in X order. */
  function Mesh(xs: seq<real>, col: seq<(real, real)>): seq<Point3> {
    if |xs| == 0 then [] else Row(xs[0], col) + Mesh(xs[1..], col)
  }

  /** The mesh over three axes: exactly the points with one coordinate from each axis. */
  function MeshNodes(xs: seq<real>, ys: seq<real>, zs: seq<real>): (r: seq<Point3>)
    ensures |r| == |xs| * (|ys| * |zs|)
    ensures forall p :: p in r <==> p.x in xs && p.y in ys && p.z in zs
  {
    var col := Column(ys, zs);
    ColumnLength(ys, zs);
    MeshLength(xs, col);
    assert forall p :: p in Mesh(xs, col) <==> p.x in xs && p.y in ys && p.z in zs by {
      forall p
        ensures p in Mesh(xs, col) <==> p.x in xs && p.y in ys && p.z in zs
      {
        MeshMembership(xs, col, p);
        ColumnMembership(ys, zs, p.y, p.z);
      }
    }
    Mesh(xs, col)
  }

  lemma {:induction false} ColumnLength(ys: seq<real>, zs: seq<real>)
    ensures |Column(ys, zs)| == |ys| * |zs|
  {
    if |ys| > 0 {
      ColumnLength(ys[1..], zs);
    }
  }

  lemma {:induction false} MeshLength(xs: seq<real>, col: seq<(real, real)>)
    ensures |Mesh(xs, col)| == |xs| * |col|
  {
    if |xs| > 0 {
      MeshLength(xs[1..], col);
    }
  }

  /** The node of X index i and column index j sits at 0-based row i * |col| + j. */
  lemma {:induction false} MeshIndex(xs: seq<real>, col: seq<(real, real)>, i: nat, j: nat)
    requires i < |xs| && j < |col|
    ensures |Mesh(xs, col)| == |xs| * |col|
    ensures i * |col| + j < |Mesh(xs, col)|
    ensures Mesh(xs, col)[i * |col| + j] == Point3(xs[i], col[j].0, col[j].1)
  {
    MeshLength(xs, col);
    if i > 0 {
      MeshIndex(xs[1..], col, i - 1, j);
      assert i * |col| + j == |col| + ((i - 1) * |col| + j);
    }
  }

  /** The mesh holds exactly the points whose coordinates come from the axes. */
  lemma {:induction false} MeshMembership(xs: seq<real>, col: seq<(real, real)>, p: Point3)
    ensures p in Mesh(xs, col) <==> p.x in xs && (p.y, p.z) in col
  {
    if |xs| > 0 {
      MeshMembership(xs[1..], col, p);
      assert xs == [xs[0]] + xs[1..];
      if p in Row(xs[0], col) {
        var k :| 0 <= k < |col| && Row(xs[0], col)[k] == p;
        assert col[k] == (p.y, p.z);
      }
      if p.x == xs[0] && (p.y, p.z) in col {
        var k :| 0 <= k < |col| && col[k] == (p.y, p.z);
        assert Row(xs[0], col)[k] == p;
      }
    }
  }

  lemma {:induction false} ColumnMembership(ys: seq<real>, zs: seq<real>, y: real, z: real)
    ensures (y, z) in Column(ys, zs) <==> y in ys && z in zs
  {
    if |ys| > 0 {
      ColumnMembership(ys[1..], zs, y, z);
      assert ys == [ys[0]] + ys[1..];
      var first := seq(|zs|, k requires 0 <= k < |zs| => (ys[0], zs[k]));
      if (y, z) in first {
        var k :| 0 <= k < |zs| && first[k] == (y, z);
      }
      if y == ys[0] && z in zs {
        var k :| 0 <= k < |zs| && zs[k] == z;
        assert first[k] == (y, z);
      }
    }
  }

  predicate PairLess(a: (real, real), b: (real, real)) {
    a.0 < b.0 || (a.0 == b.0 && a.1 < b.1)
  }

  predicate PointLess(p: Point3, q: Point3) {
    p.x < q.x || (p.x == q.x && PairLess((p.y, p.z), (q.y, q.z)))
  }

  ghost predicate PairsSorted(s: seq<(real, real)>) {
    forall i, j :: 0 <= i < j < |s| ==> PairLess(s[i], s[j])
  }

  ghost predicate PointsSorted(s: seq<Point3>) {
    forall i, j :: 0 <= i < j < |s| ==> PointLess(s[i], s[j])
  }

  /** The column of two strictly increasing axes is strictly increasing in (Y, Z) order. */
  lemma {:induction false} ColumnSorted(ys: seq<real>, zs: seq<real>)
    requires StrictlyIncreasing(ys) && StrictlyIncreasing(zs)
    ensures PairsSorted(Column(ys, zs))
  {
    if |ys| > 0 {
      var first := seq(|zs|, k requires 0 <= k < |zs| => (ys[0], zs[k]));
      var rest := Column(ys[1..], zs);
      ColumnSorted(ys[1..], zs);
      forall q | q in rest
        ensures ys[0] < q.0
      {
        ColumnMembership(ys[1..], zs, q.0, q.1);
        var k :| 0 <= k < |ys[1..]| && ys[1..][k] == q.0;
        assert ys[k + 1] == q.0;
      }
      var s := first + rest;
      forall i, j | 0 <= i < j < |s|
        ensures PairLess(s[i], s[j])
      {
        if j < |first| {
        } else if i < |first| {
          assert s[j] in rest;
        } else {
          assert s[i] == rest[i - |first|] && s[j] == rest[j - |first|];
        }
      }
    }
  }

  /**
    The mesh over strictly increasing X values and a strictly sorted column is
    strictly sorted by (X, Y, Z): it is what sorting the product and dropping
    duplicate rows yields.
  */
  lemma {:induction false} MeshSorted(xs: seq<real>, col: seq<(real, real)>)
    requires StrictlyIncreasing(xs) && PairsSorted(col)
    ensures PointsSorted(Mesh(xs, col))
  {
    if |xs| > 0 {
      var first := Row(xs[0], col);
      var rest := Mesh(xs[1..], col);
      MeshSorted(xs[1..], col);
      forall q | q in rest
        ensures xs[0] < q.x
      {
        MeshMembership(xs[1..], col, q);
        var k :| 0 <= k < |xs[1..]| && xs[1..][k] == q.x;
        assert xs[k + 1] == q.x;
      }
      var s := first + rest;
      forall i, j | 0 <= i < j < |s|
        ensures PointLess(s[i], s[j])
      {
        if j < |first| {
          assert PairLess(col[i], col[j]);
        } else if i < |first| {
          assert s[j] in rest;
        } else {
          assert s[i] == rest[i - |first|] && s[j] == rest[j - |first|];
        }
      }
    }
  }

  /** Number of nodes whose X coordinate is x (one entry of `value_counts("X")`). */
  function CountX(nodes: seq<Point3>, x: real): nat {
    if |nodes| == 0 then 0
    else (if nodes[0].x == x then 1 else 0) + CountX(nodes[1..], x)
  }

  lemma {:induction false} CountXAppend(a: seq<Point3>, b: seq<Point3>, x: real)
    ensures CountX(a + b, x) == CountX(a, x) + CountX(b, x)
  {
    if |a| > 0 {
      CountXAppend(a[1..], b, x);
      assert (a + b)[1..] == a[1..] + b;
    } else {
      assert a + b == b;
    }
  }

  lemma {:induction false} CountXRow(x: real, col: seq<(real, real)>, v: real)
    ensures CountX(Row(x, col), v) == if x == v then |col| else 0
  {
    if |col| > 0 {
      CountXRow(x, col[1..], v);
      assert Row(x, col)[1..] == Row(x, col[1..]);
    }
  }

  lemma {:induction false} CountXAbsent(nodes: seq<Point3>, v: real)
    requires forall p :: p in nodes ==> p.x != v
    ensures CountX(nodes, v) == 0
  {
    if |nodes| > 0 {
      assert nodes[0] in nodes;
      assert forall p :: p in nodes[1..] ==> p in nodes;
      CountXAbsent(nodes[1..], v);
    }
  }

  /** Every X value of a mesh over distinct X values occurs once per column entry. */
  lemma {:induction false} CountXMesh(xs: seq<real>, col: seq<(real, real)>, i: nat)
    requires StrictlyIncreasing(xs) && i < |xs|
    ensures CountX(Mesh(xs, col), xs[i]) == |col|
  {
    var rest := Mesh(xs[1..], col);
    CountXAppend(Row(xs[0], col), rest, xs[i]);
    CountXRow(xs[0], col, xs[i]);
    if i == 0 {
      forall p | p in rest
        ensures p.x != xs[0]
      {
        MeshMembership(xs[1..], col, p);
        var k :| 0 <= k < |xs[1..]| && xs[1..][k] == p.x;
        assert xs[k + 1] == p.x;
      }
      CountXAbsent(rest, xs[0]);
    } else {
      assert xs[0] < xs[i];
      CountXMesh(xs[1..], col, i - 1);
    }
  }

  /** A node's own X value occurs at least once. */
  lemma {:induction false} CountXPresent(nodes: seq<Point3>, i: nat)
    requires i < |nodes|
    ensures CountX(nodes, nodes[i].x) >= 1
  {
    if i > 0 {
      CountXPresent(nodes[1..], i - 1);
    }
  }

  /** Smallest X count among the first k nodes' X values. */
  function MinCount(nodes: seq<Point3>, k: nat): (m: nat)
    requires 1 <= k <= |nodes|
    ensures m >= 1
    ensures forall i :: 0 <= i < k ==> m <= CountX(nodes, nodes[i].x)
    ensures exists i :: 0 <= i < k && m == CountX(nodes, nodes[i].x)
  {
    if k == 1 then
      CountXPresent(nodes, 0);
      CountX(nodes, nodes[0].x)
    else
      var m := MinCount(nodes, k - 1);
      var n := CountX(nodes, nodes[k - 1].x);
      CountXPresent(nodes, k - 1);
      if n < m then n else m
  }

  /** `value_counts("X").min()`: the least number of nodes sharing one X value. */
  function ColumnStride(nodes: seq<Point3>): (c: nat)
    requires |nodes| > 0
    ensures c >= 1
    ensures forall i :: 0 <= i < |nodes| ==> c <= CountX(nodes, nodes[i].x)
    ensures exists i :: 0 <= i < |nodes| && c == CountX(nodes, nodes[i].x)
  {
    MinCount(nodes, |nodes|)
  }

  /** On a mesh over distinct X values, the column stride is the column length. */
  lemma StrideOfMesh(xs: seq<real>, col: seq<(real, real)>)
    requires StrictlyIncreasing(xs) && |xs| > 0 && |col| > 0
    ensures |Mesh(xs, col)| > 0
    ensures ColumnStride(Mesh(xs, col)) == |col|
  {
    var nodes := Mesh(xs, col);
    MeshLength(xs, col);
    assert |nodes| > 0 by {
      MeshIndex(xs, col, 0, 0);
    }
    var c := ColumnStride(nodes);
    var i :| 0 <= i < |nodes| && c == CountX(nodes, nodes[i].x);
    assert nodes[i] in nodes;
    MeshMembership(xs, col, nodes[i]);
    var k :| 0 <= k < |xs| && xs[k] == nodes[i].x;
    CountXMesh(xs, col, k);
  }
}

=== FILE: itertools.dfy ===
/** The `pairwise` recipe: s0 s1 s2 ... becomes (s0, s1), (s1, s2), ... */
module Itertools {

  function Pairwise<T>(s: seq<T>): (r: seq<(T, T)>)
    ensures |r| == if |s| == 0 then 0 else |s| - 1
    ensures forall i {:trigger r[i]} :: 0 <= i < |r| ==> r[i] == (s[i], s[i + 1])
  {
    if |s| < 2 then [] else [(s[0], s[1])] + Pairwise(s[1..])
  }

  /** Consecutive pairs share their middle element. */
  ghost predicate Chained<T>(pairs: seq<(T, T)>) {
    forall i :: 0 <= i < |pairs| - 1 ==> pairs[i].1 == pairs[i + 1].0
  }

  lemma PairwiseChained<T>(s: seq<T>)
    ensures Chained(Pairwise(s))
  {
  }
}

=== FILE: plates.dfy ===
/**
  Quad connectivity of the plate mesh. Node n (1-based) is the corner of the
  candidate quad (n, n+1, n+c+1, n+c) where c is the column stride. The converter
  (main.py) drops every candidate at a 0-based position c-1, 2c-1, ... and then
  the last c-1 survivors (a `[:-c+1]` slice).
*/
module Plates {

  /** One row of the plate table: four node indices, material, thickness. */
  datatype Quad = Quad(n1: int, n2: int, n3: int, n4: int, material: int, thickness: real)

  function Candidate(n: int, c: int, t: real): Quad {
    Quad(n, n + 1, n + c + 1, n + c, 0, t)
  }

  /** One candidate per mesh node 1..m. */
  function Candidates(m: nat, c: int, t: real): seq<Quad> {
    seq(m, i requires 0 <= i < m => Candidate(i + 1, c, t))
  }

  /** The first j rows of s without those whose 1-based position is a multiple of c. */
  function DropStride<T>(s: seq<T>, c: nat, j: nat): seq<T>
    requires c >= 1 && j <= |s|
  {
    if j == 0 then []
    else DropStride(s, c, j - 1) + (if j % c == 0 then [] else [s[j - 1]])
  }

  function Max(a: int, b: int): int {
    if a < b then b else a
  }

  function Min(a: int, b: int): int {
    if a < b then a else b
  }

  /** Python's s[:stop]; a negative stop counts from the end. */
  function SliceTo<T>(s: seq<T>, stop: int): (r: seq<T>)
    ensures |r| == if stop >= 0 then Min(stop, |s|) else Max(|s| + stop, 0)
    ensures r == s[..|r|]
  {
    if stop >= 0 then (if stop <= |s| then s[..stop] else s)
    else if |s| + stop >= 0 then s[..|s| + stop]
    else []
  }

  /**
    The plate table for m mesh nodes and column stride c, as the converter
    (main.py) computes it: every c-th candidate is dropped and then c - 1 more
    from the end, so max(m - m/c - (c - 1), 0) rows remain, each the candidate
    of a node 1..m that does not end its column.
  */
  function Quads(m: nat, c: nat, t: real): (r: seq<Quad>)
    requires c >= 1
    ensures |r| == Max(m - m / c - (c - 1), 0)
    ensures forall q :: q in r ==> q == Candidate(q.n1, c, t) && 1 <= q.n1 <= m && q.n1 % c != 0
  {
    var kept := DropStride(Candidates(m, c, t), c, m);
    DropStrideLength(Candidates(m, c, t), c, m);
    DropStrideMembers(m, c, t, m);
    var r := SliceTo(kept, 1 - c);
    assert forall q :: q in r ==> q in kept;
    r
  }

  /** A quad cornered at n stays inside one column pair and inside the mesh. */
  predicate ValidStart(n: int, m: int, c: int)
    requires c >= 1
  {
    1 <= n && n + c <= m && n % c != 0
  }

  /** Reference plate table: the candidates 1..j with a valid corner, in corner order. */
  function CellsUpTo(m: nat, c: nat, t: real, j: nat): seq<Quad>
    requires c >= 1
  {
    if j == 0 then []
    else CellsUpTo(m, c, t, j - 1) + (if ValidStart(j, m, c) then [Candidate(j, c, t)] else [])
  }

  function Cells(m: nat, c: nat, t: real): seq<Quad>
    requires c >= 1
  {
    CellsUpTo(m, c, t, m)
  }

  /** Quotient and remainder are determined by x == q * c + r with 0 <= r < c. */
  lemma DivUnique(x: int, c: int, q: int, r: int)
    requires c >= 1 && 0 <= r < c && x == q * c + r
    ensures x / c == q && x % c == r
  {
    var q', r' := x / c, x % c;
    assert x == q' * c + r' && 0 <= r' < c;
    var d := q - q';
    assert d * c == q * c - q' * c;
    assert d * c == r' - r;
    if d >= 1 {
      MulAtLeast(d, c);
    } else if d <= -1 {
      MulAtLeast(-d, c);
    }
  }

  lemma MulAtLeast(d: int, c: int)
    requires d >= 1 && c >= 1
    ensures d * c >= c
  {
    assert d * c == c + (d - 1) * c;
    assert (d - 1) * c >= 0;
  }

  /** Stepping from j - 1 to j moves the quotient by c exactly at multiples of c. */
  lemma DivStep(j: int, c: int)
    requires j >= 1 && c >= 1
    ensures j / c == (j - 1) / c + (if j % c == 0 then 1 else 0)
  {
    var q, r := (j - 1) / c, (j - 1) % c;
    if r + 1 < c {
      DivUnique(j, c, q, r + 1);
    } else {
      DivUnique(j, c, q + 1, 0);
    }
  }

  lemma {:induction false} DropStrideLength<T>(s: seq<T>, c: nat, j: nat)
    requires c >= 1 && j <= |s|
    ensures |DropStride(s, c, j)| == j - j / c
  {
    if j > 0 {
      DropStrideLength(s, c, j - 1);
      DivStep(j, c);
    }
  }

  /** What survives the stride drop over the first j candidates: candidates of nodes 1..j off the column ends. */
  lemma {:induction false} DropStrideMembers(m: nat, c: nat, t: real, j: nat)
    requires c >= 1 && j <= m
    ensures forall q :: q in DropStride(Candidates(m, c, t), c, j) ==>
              q == Candidate(q.n1, c, t) && 1 <= q.n1 <= j && q.n1 % c != 0
  {
    if j > 0 {
      DropStrideMembers(m, c, t, j - 1);
      assert Candidates(m, c, t)[j - 1] == Candidate(j, c, t);
    }
  }

  /** Dropping along a shorter prefix gives a prefix of the result. */
  lemma {:induction false} DropStridePrefix<T>(s: seq<T>, c: nat, i: nat, j: nat)
    requires c >= 1 && i <= j <= |s|
    ensures |DropStride(s, c, i)| <= |DropStride(s, c, j)|
    ensures DropStride(s, c, j)[..|DropStride(s, c, i)|] == DropStride(s, c, i)
  {
    if i < j {
      DropStridePrefix(s, c, i, j - 1);
      var a, b := DropStride(s, c, i), DropStride(s, c, j - 1);
      assert DropStride(s, c, j)[..|b|] == b;
      assert b[..|a|] == a;
    }
  }

  /** Below the last column the reference keeps exactly the candidates the stride drop keeps. */
  lemma {:induction false} CellsMatchDrop(m: nat, c: nat, t: real, j: nat)
    requires c >= 1 && j + c <= m
    ensures CellsUpTo(m, c, t, j) == DropStride(Candidates(m, c, t), c, j)
  {
    if j > 0 {
      CellsMatchDrop(m, c, t, j - 1);
      assert Candidates(m, c, t)[j - 1] == Candidate(j, c, t);
    }
  }

  /** In the last column no corner is valid. */
  lemma {:induction false} CellsStopAtLastColumn(m: nat, c: nat, t: real, j: nat)
    requires c >= 1 && m <= j + c && j <= m
    ensures CellsUpTo(m, c, t, j) == CellsUpTo(m, c, t, if m >= c then m - c else 0)
  {
    var lo := if m >= c then m - c else 0;
    if j > lo {
      CellsStopAtLastColumn(m, c, t, j - 1);
    }
  }

  /** For a rectangular mesh of k columns of c nodes there are (k - 1)(c - 1) quads. */
  lemma RectangularQuadCount(m: nat, c: nat, t: real)
    requires c >= 1 && m > 0 && m % c == 0
    ensures |Quads(m, c, t)| == (m / c - 1) * (c - 1)
  {
    var k := m / c;
    DivUnique(m, c, k, 0);
    assert m == k * c;
    if k <= 0 {
      MulMonotone(k, 0, c);
      assert false;
    }
    GridQuadCount(k, c, t);
  }

  lemma GridQuadCount(k: nat, c: nat, t: real)
    requires k >= 1 && c >= 1
    ensures |Quads(k * c, c, t)| == (k - 1) * (c - 1)
  {
    var m := k * c;
    DivUnique(m, c, k, 0);
    ProductExpand(k, c);
    assert m - k - (c - 1) == (k - 1) * (c - 1);
    NonnegativeProduct(k - 1, c - 1);
  }

  lemma ProductExpand(k: int, c: int)
    ensures (k - 1) * (c - 1) == k * c - k - c + 1
  {
    assert (k - 1) * (c - 1) == (k - 1) * c - (k - 1);
    assert (k - 1) * c == k * c - c;
  }

  lemma NonnegativeProduct(a: int, b: int)
    requires a >= 0 && b >= 0
    ensures a * b >= 0
  {
    if a > 0 && b > 0 {
      MulAtLeast(a, b);
    }
  }

  /** A table of k columns of c nodes: (k - 1)(c - 1) quads, each of thickness t and material 0. */
  lemma GridQuads(k: nat, c: nat, t: real)
    requires k >= 1 && c >= 1
    ensures |Quads(k * c, c, t)| == (k - 1) * (c - 1)
    ensures forall q :: q in Quads(k * c, c, t) ==> q.thickness == t && q.material == 0
  {
    var m := k * c;
    DivUnique(m, c, k, 0);
    GridQuadCount(k, c, t);
    forall q | q in Quads(m, c, t)
      ensures q.thickness == t && q.material == 0
    {
      QuadBounds(m, c, t, q);
    }
  }

  /** A mesh with a single column has no quads. */
  lemma SingleColumnHasNoQuads(m: nat, t: real)
    requires m >= 1
    ensures Quads(m, m, t) == []
  {
    assert m / m == 1;
  }

  /** With a stride of 1 the `[:0]` slice leaves no quad at all. */
  lemma StrideOneHasNoQuads(m: nat, t: real)
    ensures Quads(m, 1, t) == []
  {
    DivUnique(m, 1, m, 0);
  }

  /**
    For a rectangular mesh (m a multiple of c) the converter's drop-and-slice is
    the reference: the candidates whose corner n satisfies 1 <= n,
    n + c <= m and n mod c != 0, in increasing n.
  */
  lemma QuadsAreCells(m: nat, c: nat, t: real)
    requires c >= 1 && m % c == 0
    ensures Quads(m, c, t) == Cells(m, c, t)
  {
    var cands := Candidates(m, c, t);
    CellsStopAtLastColumn(m, c, t, m);
    if m < c {
      SmallMultipleIsZero(m, c);
    } else {
      CellsMatchDrop(m, c, t, m - c);
      DropStrideLength(cands, c, m);
      DropStrideLength(cands, c, m - c);
      DropStridePrefix(cands, c, m - c, m);
      LastColumnLength(m, c);
    }
  }

  lemma SmallMultipleIsZero(m: nat, c: nat)
    requires c >= 1 && m % c == 0 && m < c
    ensures m == 0
  {
    DivUnique(m, c, 0, m);
  }

  /** Slicing off c - 1 rows from m - m/c leaves (m - c) - (m - c)/c rows. */
  lemma LastColumnLength(m: nat, c: nat)
    requires c >= 1 && m % c == 0 && m >= c
    ensures var all, low := m - m / c, (m - c) - (m - c) / c;
            0 <= low <= all
            && (if 1 - c >= 0 then Min(1 - c, all) else Max(all + 1 - c, 0)) == low
  {
    var k := m / c;
    DivUnique(m, c, k, 0);
    assert m - c == (k - 1) * c;
    DivUnique(m - c, c, k - 1, 0);
  }

  /** Reference quads are exactly the valid-corner candidates. */
  lemma {:induction false} CellsMembership(m: nat, c: nat, t: real, j: nat, q: Quad)
    requires c >= 1
    ensures q in CellsUpTo(m, c, t, j) <==> 1 <= q.n1 <= j && ValidStart(q.n1, m, c) && q == Candidate(q.n1, c, t)
  {
    if j > 0 {
      CellsMembership(m, c, t, j - 1, q);
    }
  }

  /** Reference quads are in strictly increasing corner order. */
  lemma {:induction false} CellsIncreasing(m: nat, c: nat, t: real, j: nat)
    requires c >= 1
    ensures forall q :: q in CellsUpTo(m, c, t, j) ==> 1 <= q.n1 <= j
    ensures forall a, b :: 0 <= a < b < |CellsUpTo(m, c, t, j)| ==>
              CellsUpTo(m, c, t, j)[a].n1 < CellsUpTo(m, c, t, j)[b].n1
  {
    if j > 0 {
      CellsIncreasing(m, c, t, j - 1);
      var prev := CellsUpTo(m, c, t, j - 1);
      var s := CellsUpTo(m, c, t, j);
      forall a, b | 0 <= a < b < |s|
        ensures s[a].n1 < s[b].n1
      {
        if b < |prev| {
          assert s[a] == prev[a] && s[b] == prev[b];
        } else {
          assert s[a] == prev[a];
          assert prev[a] in prev;
        }
      }
    }
  }

  /**
    On a rectangular mesh every quad the converter emits is the candidate of a
    valid corner, and every valid corner yields one; the quads come in
    increasing corner order.
  */
  lemma QuadsCharacterized(m: nat, c: nat, t: real)
    requires c >= 1 && m % c == 0
    ensures forall q :: q in Quads(m, c, t) <==> ValidStart(q.n1, m, c) && q == Candidate(q.n1, c, t)
    ensures forall a, b :: 0 <= a < b < |Quads(m, c, t)| ==> Quads(m, c, t)[a].n1 < Quads(m, c, t)[b].n1
  {
    QuadsAreCells(m, c, t);
    forall q
      ensures q in Quads(m, c, t) <==> ValidStart(q.n1, m, c) && q == Candidate(q.n1, c, t)
    {
      CellsMembership(m, c, t, m, q);
    }
    CellsIncreasing(m, c, t, m);
  }

  /**
    On a rectangular mesh each quad's four indices are mesh nodes; n1 and n2
    lie in one column, n4 and n3 in the next one.
  */
  lemma QuadBounds(m: nat, c: nat, t: real, q: Quad)
    requires c >= 1 && m % c == 0 && q in Quads(m, c, t)
    ensures 1 <= q.n1 && q.n2 <= m && 1 <= q.n4 && q.n3 <= m
    ensures q.n2 == q.n1 + 1 && q.n3 == q.n4 + 1 && q.n4 == q.n1 + c
    ensures (q.n1 - 1) / c == (q.n2 - 1) / c
    ensures (q.n4 - 1) / c == (q.n3 - 1) / c == (q.n1 - 1) / c + 1
    ensures q.thickness == t && q.material == 0
  {
    QuadsCharacterized(m, c, t);
    CornerArithmetic(q.n1, m, c);
  }

  /** A valid corner of a rectangular mesh is not in the last row of its column, nor in the last column. */
  lemma CornerArithmetic(n: int, m: int, c: int)
    requires c >= 1 && m >= 0 && m % c == 0 && ValidStart(n, m, c)
    ensures n + c + 1 <= m
    ensures (n - 1) / c == n / c
    ensures (n + c - 1) / c == (n + c) / c == (n - 1) / c + 1
    ensures (n - 1) % c + 1 < c
  {
    RowInColumn(n, c);
    NextColumn(n, c);
    if n + c == m {
      assert false;
    }
  }

  /** Node n (1-based, n mod c != 0) and node n - 1 share a column, and n is not the column's last node. */
  lemma RowInColumn(n: int, c: int)
    requires c >= 1 && n % c != 0
    ensures (n - 1) / c == n / c
    ensures (n - 1) % c + 1 < c
  {
    var i, j := (n - 1) / c, (n - 1) % c;
    if j + 1 == c {
      DivUnique(n, c, i + 1, 0);
      assert false;
    }
    DivUnique(n, c, i, j + 1);
  }

  /** Adding the stride c moves a node to the same row of the next column. */
  lemma NextColumn(n: int, c: int)
    requires c >= 1
    ensures (n + c - 1) / c == (n - 1) / c + 1
    ensures (n + c) / c == n / c + 1 && (n + c) % c == n % c
  {
    DivUnique(n + c - 1, c, (n - 1) / c + 1, (n - 1) % c);
    DivUnique(n + c, c, n / c + 1, n % c);
  }

  lemma MulMonotone(a: int, b: int, c: int)
    requires a <= b && c >= 1
    ensures a * c <= b * c
  {
    assert b * c - a * c == (b - a) * c;
  }
}

=== FILE: subdivision.dfy ===
/**
  Subdivision of one mesh axis: the sorted distinct positions of the node
  table on that axis are split into consecutive pairs, and each pair (a, b)
  becomes ceil((b - a) / h + 1) evenly spaced points from a to b, where h is
  the spacing converted to drawing units. An axis whose positions are all 0
  becomes the single value 0.
*/
module Subdivision {
  import opened Wrappers
  import opened Errors
  import opened Units
  import opened Itertools

  ghost predicate StrictlyIncreasing(s: seq<real>) {
    forall i, j :: 0 <= i < j < |s| ==> s[i] < s[j]
  }

  /** Inserts v into a strictly increasing sequence, keeping it strictly increasing. */
  function Insert(v: real, s: seq<real>): (r: seq<real>)
    requires StrictlyIncreasing(s)
    ensures StrictlyIncreasing(r)
    ensures forall w :: w in r <==> w == v || w in s
  {
    if |s| == 0 then [v]
    else if v < s[0] then
      assert forall w :: w in s ==> v < w;
      Prepend(v, s);
      [v] + s
    else if v == s[0] then s
    else
      var rest := Insert(v, s[1..]);
      assert forall w :: w in rest ==> s[0] < w;
      Prepend(s[0], rest);
      assert s == [s[0]] + s[1..];
      [s[0]] + rest
  }

  /** A value below every element of a strictly increasing sequence can go in front of it. */
  lemma Prepend(x: real, s: seq<real>)
    requires StrictlyIncreasing(s) && forall w :: w in s ==> x < w
    ensures StrictlyIncreasing([x] + s)
    ensures forall w :: w in [x] + s <==> w == x || w in s
  {
    var r := [x] + s;
    forall i, j | 0 <= i < j < |r|
      ensures r[i] < r[j]
    {
      assert r[j] == s[j - 1] && s[j - 1] in s;
      if i > 0 { assert r[i] == s[i - 1]; }
    }
  }

  /** `sort_values().unique()`: the distinct values in ascending order. */
  function SortedUnique(xs: seq<real>): (r: seq<real>)
    ensures StrictlyIncreasing(r)
    ensures forall w :: w in r <==> w in xs
    ensures |r| <= |xs|
  {
    if |xs| == 0 then []
    else
      var rest := SortedUnique(xs[1..]);
      assert forall w :: w in xs <==> w == xs[0] || w in xs[1..];
      InsertLength(xs[0], rest);
      Insert(xs[0], rest)
  }

  lemma {:induction false} InsertLength(v: real, s: seq<real>)
    requires StrictlyIncreasing(s)
    ensures |Insert(v, s)| <= |s| + 1
  {
    if |s| > 0 && v > s[0] {
      InsertLength(v, s[1..]);
    }
  }

  predicate AllZero(positions: seq<real>) {
    forall i :: 0 <= i < |positions| ==> positions[i] == 0.0
  }

  /** Python's math.ceil over exact reals. */
  function Ceil(x: real): (r: int)
    ensures x <= r as real < x + 1.0
  {
    if x.Floor as real == x then x.Floor else x.Floor + 1
  }

  /**
    Number of points placed on the segment from a to b for spacing h. For a
    proper segment and a positive spacing it is the least count of at least
    two points whose step does not exceed h.
  */
  function PointCount(a: real, b: real, h: real): (n: int)
    requires h != 0.0
    ensures (b - a) / h + 1.0 <= n as real < (b - a) / h + 2.0
    ensures a < b && h > 0.0 ==>
              && n >= 2
              && (b - a) / ((n - 1) as real) <= h
              && (n >= 3 ==> (b - a) / ((n - 2) as real) > h)
  {
    var n := Ceil((b - a) / h + 1.0);
    CountBounds(a, b, h, n);
    n
  }

  /** numpy.linspace(a, b, n) over exact reals: n points from a to b, both included when n >= 2. */
  function Linspace(a: real, b: real, n: nat): (r: seq<real>)
    ensures |r| == n
    ensures n >= 1 ==> r[0] == a
    ensures n >= 2 ==> r[n - 1] == b
  {
    if n == 0 then []
    else if n == 1 then [a]
    else
      var d := (b - a) / ((n - 1) as real);
      var r := seq(n, i requires 0 <= i < n => a + (i as real) * d);
      assert r[n - 1] == a + ((n - 1) as real) * d;
      assert ((n - 1) as real) * d == b - a;
      r
  }

  /** The points of a linspace are equally spaced, (b - a) / (n - 1) apart. */
  lemma LinspaceSteps(a: real, b: real, n: nat)
    requires n >= 2
    ensures var r := Linspace(a, b, n);
            forall i :: 0 <= i < n - 1 ==> r[i + 1] - r[i] == (b - a) / ((n - 1) as real)
  {
    var d := (b - a) / ((n - 1) as real);
    var r := Linspace(a, b, n);
    forall i | 0 <= i < n - 1
      ensures r[i + 1] - r[i] == d
    {
      assert r[i + 1] == a + ((i + 1) as real) * d;
      assert r[i] == a + (i as real) * d;
      assert ((i + 1) as real) * d == (i as real) * d + d;
    }
  }

  /** ceil((b - a) / h + 1) is the least count of at least two points whose step does not exceed h. */
  lemma CountBounds(a: real, b: real, h: real, n: int)
    requires h != 0.0 && n == Ceil((b - a) / h + 1.0)
    ensures a < b && h > 0.0 ==>
              && n >= 2
              && (b - a) / ((n - 1) as real) <= h
              && (n >= 3 ==> (b - a) / ((n - 2) as real) > h)
  {
    if a < b && h > 0.0 {
      var q := (b - a) / h;
      assert q * h == b - a;
      assert q > 0.0;
      assert q + 1.0 <= n as real < q + 2.0;
      StepAtMost(b - a, (n - 1) as real, q, h);
      if n >= 3 {
        StepAbove(b - a, (n - 2) as real, q, h);
      }
    }
  }

  /** If m >= q > 0 and q * h == w then w / m <= h. */
  lemma StepAtMost(w: real, m: real, q: real, h: real)
    requires h > 0.0 && q > 0.0 && m >= q && q * h == w
    ensures w / m <= h
  {
    var d := w / m;
    assert d * m == w;
    assert m * h >= q * h;
    assert (h - d) * m >= 0.0;
  }

  /** If 0 < k < q and q * h == w then w / k > h. */
  lemma StepAbove(w: real, k: real, q: real, h: real)
    requires h > 0.0 && 0.0 < k < q && q * h == w
    ensures w / k > h
  {
    var d := w / k;
    assert d * k == w;
    assert k * h < q * h;
    assert (d - h) * k > 0.0;
  }

  /** Concatenated linspace segments for a list of pairs, all with spacing h. */
  function Spread(pairs: seq<(real, real)>, h: real): (r: Result<seq<real>, ConvertError>)
    requires h != 0.0
    ensures r.Failure? <==> exists i :: 0 <= i < |pairs| && PointCount(pairs[i].0, pairs[i].1, h) < 0
    ensures r.Failure? ==> r.error.NegativeSampleCount? && r.error.count < 0
    ensures r.Failure? ==>
              exists i :: 0 <= i < |pairs| && r.error.count == PointCount(pairs[i].0, pairs[i].1, h) &&
                forall k :: 0 <= k < i ==> PointCount(pairs[k].0, pairs[k].1, h) >= 0
  {
    if |pairs| == 0 then Success([])
    else
      var n := PointCount(pairs[0].0, pairs[0].1, h);
      if n < 0 then Failure(NegativeSampleCount(n))
      else
        assert forall i :: 1 <= i < |pairs| ==> pairs[i] == pairs[1..][i - 1];
        match Spread(pairs[1..], h)
        case Failure(e) => Failure(e)
        case Success(rest) => Success(Linspace(pairs[0].0, pairs[0].1, n) + rest)
  }

  /** Sum of the point counts of all pairs. */
  function TotalPoints(pairs: seq<(real, real)>, h: real): int
    requires h != 0.0
  {
    if |pairs| == 0 then 0
    else PointCount(pairs[0].0, pairs[0].1, h) + TotalPoints(pairs[1..], h)
  }

  /** A successful spread places exactly the point count of every pair, and no count is negative. */
  lemma {:induction false} SpreadLength(pairs: seq<(real, real)>, h: real)
    requires h != 0.0 && Spread(pairs, h).Success?
    ensures |Spread(pairs, h).value| == TotalPoints(pairs, h)
    ensures forall i :: 0 <= i < |pairs| ==> PointCount(pairs[i].0, pairs[i].1, h) >= 0
  {
    if |pairs| > 0 {
      SpreadLength(pairs[1..], h);
      forall i | 0 <= i < |pairs|
        ensures PointCount(pairs[i].0, pairs[i].1, h) >= 0
      {
        if i > 0 {
          assert pairs[i] == pairs[1..][i - 1];
        }
      }
    }
  }

  /** The subdivided axis for sorted distinct positions, spacing g and unit code. */
  function SubdivideAxis(positions: seq<real>, g: real, unit: int): (r: Result<seq<real>, ConvertError>)
    ensures AllZero(positions) ==> r == Success([0.0])
    ensures r.Failure? ==> !AllZero(positions) && |positions| >= 2
    ensures !AllZero(positions) && |positions| >= 2 && UnitScale(unit).None? ==>
              r == Failure(UnsupportedUnit(unit))
    ensures !AllZero(positions) && |positions| >= 2 && UnitScale(unit).Some? && g == 0.0 ==>
              r == Failure(ZeroSpacing)
    ensures r.Success? && !AllZero(positions) && |positions| < 2 ==> r.value == []
    ensures StrictlyIncreasing(positions) && g > 0.0 && UnitScale(unit).Some? ==> r.Success?
  {
    if AllZero(positions) then Success([0.0])
    else
      var pairs := Pairwise(positions);
      if |pairs| == 0 then Success([])
      else
        match UnitScale(unit)
        case None => Failure(UnsupportedUnit(unit))
        case Some(scale) =>
          if g == 0.0 then Failure(ZeroSpacing)
          else
            var h := g / scale;
            PairsOfIncreasing(positions);
            SpreadSucceeds(pairs, h);
            Spread(pairs, h)
  }

  /** Every pair is a proper interval and consecutive pairs share an endpoint. */
  ghost predicate Ascending(pairs: seq<(real, real)>) {
    && Chained(pairs)
    && forall i :: 0 <= i < |pairs| ==> pairs[i].0 < pairs[i].1
  }

  lemma {:induction false} SpreadSucceeds(pairs: seq<(real, real)>, h: real)
    requires h != 0.0
    ensures h > 0.0 && (forall i :: 0 <= i < |pairs| ==> pairs[i].0 < pairs[i].1) ==> Spread(pairs, h).Success?
  {
    if |pairs| > 0 && h > 0.0 && (forall i :: 0 <= i < |pairs| ==> pairs[i].0 < pairs[i].1) {
      SpreadSucceeds(pairs[1..], h);
    }
  }

  /** Both endpoints of every pair occur in s. */
  ghost predicate Covers(s: seq<real>, pairs: seq<(real, real)>) {
    forall i :: 0 <= i < |pairs| ==> pairs[i].0 in s && pairs[i].1 in s
  }

  ghost predicate StepsWithin(s: seq<real>, h: real) {
    forall i :: 0 <= i < |s| - 1 ==> 0.0 <= s[i + 1] - s[i] <= h
  }

  /**
    s runs from the first pair's start to the last pair's end, contains
    every pair endpoint, and every step is between 0 and h.
  */
  ghost predicate Spans(s: seq<real>, pairs: seq<(real, real)>, h: real)
    requires |pairs| >= 1
  {
    && |s| >= 2
    && s[0] == pairs[0].0
    && s[|s| - 1] == pairs[|pairs| - 1].1
    && Covers(s, pairs)
    && StepsWithin(s, h)
  }

  lemma PairsOfIncreasing(positions: seq<real>)
    ensures StrictlyIncreasing(positions) ==> Ascending(Pairwise(positions))
  {
    PairwiseChained(positions);
  }

  /** One segment runs from a to b in equal steps of at most h. */
  lemma SegmentSpacing(a: real, b: real, h: real)
    requires a < b && h > 0.0
    ensures var seg := Linspace(a, b, PointCount(a, b, h));
            |seg| >= 2 && seg[0] == a && seg[|seg| - 1] == b && StepsWithin(seg, h)
  {
    var n := PointCount(a, b, h);
    LinspaceSteps(a, b, n);
    assert 0.0 < (b - a) / ((n - 1) as real);
  }

  /** Gluing two runs that meet at a shared point keeps every step within h. */
  lemma GluedSpacing(s1: seq<real>, s2: seq<real>, h: real)
    requires |s1| >= 1 && |s2| >= 1 && s1[|s1| - 1] == s2[0]
    requires StepsWithin(s1, h) && StepsWithin(s2, h) && h >= 0.0
    ensures StepsWithin(s1 + s2, h)
  {
    var s := s1 + s2;
    forall i | 0 <= i < |s| - 1
      ensures 0.0 <= s[i + 1] - s[i] <= h
    {
      if i < |s1| - 1 {
        assert s[i + 1] - s[i] == s1[i + 1] - s1[i];
      } else if i == |s1| - 1 {
        assert s[i + 1] - s[i] == 0.0;
      } else {
        assert s[i + 1] - s[i] == s2[i + 1 - |s1|] - s2[i - |s1|];
      }
    }
  }

  /** Spreading a non-empty list is the first segment followed by the spread of the rest. */
  lemma SpreadUnfold(pairs: seq<(real, real)>, h: real)
    requires |pairs| >= 1 && h > 0.0 && pairs[0].0 < pairs[0].1
    requires Spread(pairs[1..], h).Success?
    ensures Spread(pairs, h) ==
            Success(Linspace(pairs[0].0, pairs[0].1, PointCount(pairs[0].0, pairs[0].1, h))
                    + Spread(pairs[1..], h).value)
  {
  }

  /** A spread axis runs from the first pair's start to the last pair's end, in steps between 0 and h. */
  lemma {:induction false} SpreadSpacing(pairs: seq<(real, real)>, h: real)
    requires |pairs| >= 1 && h > 0.0 && Ascending(pairs)
    ensures Spread(pairs, h).Success?
    ensures Spans(Spread(pairs, h).value, pairs, h)
  {
    var a, b := pairs[0].0, pairs[0].1;
    SegmentSpacing(a, b, h);
    var seg := Linspace(a, b, PointCount(a, b, h));
    var tail := pairs[1..];
    if |tail| == 0 {
      assert Spread(tail, h) == Success([]);
      SpreadUnfold(pairs, h);
      assert Spread(pairs, h).value == seg + [] == seg;
    } else {
      AscendingTail(pairs);
      SpreadSpacing(tail, h);
      var rest := Spread(tail, h).value;
      SpreadUnfold(pairs, h);
      GlueSegment(pairs, seg, rest, h);
    }
  }

  lemma AscendingTail(pairs: seq<(real, real)>)
    requires |pairs| >= 2 && Ascending(pairs)
    ensures Ascending(pairs[1..]) && pairs[0].1 == pairs[1..][0].0
    ensures pairs[|pairs| - 1] == pairs[1..][|pairs| - 2]
  {
  }

  /** The first segment followed by the spread of the remaining pairs spans all the pairs. */
  lemma GlueSegment(pairs: seq<(real, real)>, seg: seq<real>, rest: seq<real>, h: real)
    requires |pairs| >= 2 && h >= 0.0
    requires |seg| >= 2 && seg[0] == pairs[0].0 && seg[|seg| - 1] == pairs[0].1 && StepsWithin(seg, h)
    requires Spans(rest, pairs[1..], h) && pairs[0].1 == pairs[1].0
    ensures Spans(seg + rest, pairs, h)
  {
    GluedSpacing(seg, rest, h);
    MembersOfSpread(pairs, seg, rest);
    assert (seg + rest)[|seg + rest| - 1] == rest[|rest| - 1];
  }

  lemma MembersOfSpread(pairs: seq<(real, real)>, seg: seq<real>, rest: seq<real>)
    requires |pairs| >= 2 && |seg| >= 2
    requires seg[0] == pairs[0].0 && seg[|seg| - 1] == pairs[0].1
    requires Covers(rest, pairs[1..])
    ensures Covers(seg + rest, pairs)
  {
    forall i | 0 <= i < |pairs|
      ensures pairs[i].0 in seg + rest && pairs[i].1 in seg + rest
    {
      if i == 0 {
        assert (seg + rest)[0] == pairs[0].0;
        assert (seg + rest)[|seg| - 1] == pairs[0].1;
      } else {
        assert pairs[i] == pairs[1..][i - 1];
      }
    }
  }

  /**
    With a positive spacing and a known unit, the subdivided axis starts at
    the smallest position, ends at the largest, contains every original
    position, and no two neighbouring points are further apart than the
    spacing in drawing units.
  */
  lemma AxisSpacing(positions: seq<real>, g: real, unit: int)
    requires StrictlyIncreasing(positions) && |positions| >= 2
    requires g > 0.0 && UnitScale(unit).Some?
    ensures SubdivideAxis(positions, g, unit).Success?
    ensures var s := SubdivideAxis(positions, g, unit).value;
            var h := g / UnitScale(unit).value;
            && s[0] == positions[0]
            && s[|s| - 1] == positions[|positions| - 1]
            && (forall p :: p in positions ==> p in s)
            && StepsWithin(s, h)
  {
    var pairs := Pairwise(positions);
    var h := g / UnitScale(unit).value;
    SubdivideIsSpread(positions, g, unit);
    PairsOfIncreasing(positions);
    SpreadSpacing(pairs, h);
    PositionsCovered(positions, Spread(pairs, h).value);
  }

  /** For an axis with two distinct positions and a usable spacing, subdivision is the spread of its pairs. */
  lemma SubdivideIsSpread(positions: seq<real>, g: real, unit: int)
    requires StrictlyIncreasing(positions) && |positions| >= 2
    requires g > 0.0 && UnitScale(unit).Some?
    ensures g / UnitScale(unit).value > 0.0
    ensures SubdivideAxis(positions, g, unit) == Spread(Pairwise(positions), g / UnitScale(unit).value)
  {
    assert positions[0] < positions[1];
    assert !AllZero(positions);
  }

  /** Covering every pair of `pairwise(positions)` covers every position. */
  lemma PositionsCovered(positions: seq<real>, s: seq<real>)
    requires |positions| >= 2 && Covers(s, Pairwise(positions))
    ensures forall p :: p in positions ==> p in s
  {
    var pairs := Pairwise(positions);
    forall p | p in positions
      ensures p in s
    {
      var k :| 0 <= k < |positions| && positions[k] == p;
      if k < |positions| - 1 {
        assert pairs[k].0 == p;
      } else {
        assert pairs[k - 1].1 == p;
      }
    }
  }

  /** Two strictly increasing positions cannot both be 0. */
  lemma PairNotZero(positions: seq<real>)
    requires StrictlyIncreasing(positions) && |positions| >= 2
    ensures !AllZero(positions)
  {
    assert positions[0] < positions[1];
  }

  /** A single non-zero position: the axis has nothing to subdivide and is not collapsed to 0. */
  predicate Lone(positions: seq<real>) {
    |positions| == 1 && positions[0] != 0.0
  }

  /**
    Subdivision succeeds whenever the axis has no pair, or the spacing is
    positive and the unit known; the result is then empty exactly for a lone
    non-zero position.
  */
  lemma AxisEmpty(positions: seq<real>, g: real, unit: int)
    requires StrictlyIncreasing(positions)
    requires |positions| < 2 || (g > 0.0 && UnitScale(unit).Some?)
    ensures SubdivideAxis(positions, g, unit).Success?
    ensures SubdivideAxis(positions, g, unit).value == [] <==> Lone(positions)
  {
    if |positions| >= 2 {
      AxisSpacing(positions, g, unit);
      assert positions[0] < positions[1];
    } else if |positions| == 1 && positions[0] == 0.0 {
      assert AllZero(positions);
    }
  }

  /** Steps that are never negative keep a sequence in non-decreasing order. */
  lemma {:induction false} NonDecreasing(s: seq<real>, h: real, i: nat, j: nat)
    requires StepsWithin(s, h) && i <= j < |s|
    ensures s[i] <= s[j]
    decreases j - i
  {
    if i < j {
      NonDecreasing(s, h, i + 1, j);
      assert 0.0 <= s[i + 1] - s[i];
    }
  }

  /**
    With a positive spacing and a known unit, a non-empty subdivided axis
    contains every position and stays between the smallest and the largest.
  */
  lemma AxisCoverage(positions: seq<real>, g: real, unit: int)
    requires StrictlyIncreasing(positions) && |positions| > 0
    requires g > 0.0 && UnitScale(unit).Some?
    requires SubdivideAxis(positions, g, unit).Success? && SubdivideAxis(positions, g, unit).value != []
    ensures var s := SubdivideAxis(positions, g, unit).value;
            && (forall p :: p in positions ==> p in s)
            && (forall w :: w in s ==> positions[0] <= w <= positions[|positions| - 1])
  {
    if |positions| >= 2 {
      SpreadCoverage(positions, g, unit);
    } else {
      AxisEmpty(positions, g, unit);
      assert !Lone(positions) && positions[0] == 0.0;
      assert AllZero(positions);
      assert SubdivideAxis(positions, g, unit).value == [0.0];
    }
  }

  lemma SpreadCoverage(positions: seq<real>, g: real, unit: int)
    requires StrictlyIncreasing(positions) && |positions| >= 2
    requires g > 0.0 && UnitScale(unit).Some?
    ensures SubdivideAxis(positions, g, unit).Success?
    ensures var s := SubdivideAxis(positions, g, unit).value;
            && (forall p :: p in positions ==> p in s)
            && (forall w :: w in s ==> positions[0] <= w <= positions[|positions| - 1])
  {
    AxisSpacing(positions, g, unit);
    var s := SubdivideAxis(positions, g, unit).value;
    var h := g / UnitScale(unit).value;
    forall w | w in s
      ensures positions[0] <= w <= positions[|positions| - 1]
    {
      var k :| 0 <= k < |s| && s[k] == w;
      NonDecreasing(s, h, 0, k);
      NonDecreasing(s, h, k, |s| - 1);
    }
  }

  /** A zero axis yields the single value 0 whatever the spacing and unit. */
  lemma ZeroAxisCollapses(positions: seq<real>, g: real, unit: int)
    requires forall p :: p in positions ==> p == 0.0
    ensures SubdivideAxis(positions, g, unit) == Success([0.0])
  {
    assert forall i :: 0 <= i < |positions| ==> positions[i] in positions;
  }
}

=== FILE: units.dfy ===
/** The drawing-unit table: scale of one drawing unit in centimetres. */
module Units {
  import opened Wrappers

  const Millimeters: int := 4
  const Centimeters: int := 5
  const Meters: int := 6
  const Kilometers: int := 7

  /** Centimetres per drawing unit; no entry for any other code. */
  function UnitScale(code: int): (scale: Option<real>)
    ensures scale.Some? <==> Millimeters <= code <= Kilometers
    ensures scale.Some? ==> scale.value > 0.0
    ensures code == Centimeters ==> scale == Some(1.0)
  {
    if code == Millimeters then Some(0.1)
    else if code == Centimeters then Some(1.0)
    else if code == Meters then Some(100.0)
    else if code == Kilometers then Some(100000.0)
    else None
  }

  /** A larger unit code always means a larger unit. */
  lemma ScaleIncreasing(a: int, b: int)
    requires Millimeters <= a < b <= Kilometers
    ensures UnitScale(a).value < UnitScale(b).value
  {
  }

  /** Plate thickness: the spacing divided by the metre entry of the table. */
  function Thickness(g: real): (t: real)
    ensures t * UnitScale(Meters).value == g
  {
    g / UnitScale(Meters).value
  }
}

=== FILE: wrappers.dfy ===
/** Failure-compatible result type used for the conversion's error paths. */
module Wrappers {

  datatype Option<+T> = None | Some(value: T)

  /** Either a value or an error; usable with `:-`. */
  datatype Result<+R, +E> = Success(value: R) | Failure(error: E) {

    predicate IsFailure() {
      Failure?
    }

    function PropagateFailure<U>(): Result<U, E>
      requires Failure?
    {
      Failure(error)
    }

    function Extract(): R
      requires Success?
    {
      value
    }
  }
}
